=== FILE: README.md ===
# YouTube transcript summariser — a Dafny model of its string logic

The program is a console chat loop. It reads a line and strips it. It stops on
`exit`, `quit` or `bye`, whatever their case. A line without `youtube.com`
gets a request for a valid URL. Any other line is recorded as a user turn, and
`fetch_youtube_transcript` turns it into transcript text. That text goes,
behind the prefix `summary of the transcript: `, to a chat-completion service,
and the reply is printed.

This project models the three pieces of pure logic in that path, plus the loop
that drives them:

- **Video-ID extraction** (`video_id.dfy`, module `VideoId`). The pattern
  `(?:v=|\/)([0-9A-Za-z_-]{11}).*` under `re.search` is written as a scanner
  over `seq<char>`. `MatchAt(url, i)` says that the pattern matches starting at
  `i`. `FirstMatch` finds the leftmost such position. `ExtractVideoId` returns
  the 11 captured characters, or `Err("Invalid YouTube URL")`.
- **Transcript formatting** (`decimal.dfy`, `lines.dfy`, `transcript.dfy`).
  `str(n)` and `{n:02d}` are `Decimal.ToDecimal` and `Decimal.Pad2`.
  `"\n".join` is `Lines.Join`, and `Lines.Split` is its inverse.
  `Transcript.Timestamp` builds the `[MM:SS]` tag and `Transcript.FormatEntry`
  builds one line. `Transcript.TranscriptText` covers the empty-transcript
  error and the failed-fetch error. `Transcript.FetchYoutubeTranscript` is the
  whole function, with the transcript service passed in as a parameter.
  Each rendering has a reader beside it (`ParseTimestamp`, `ParseEntry`,
  `ParseTranscript`), and round-trip lemmas connect the two.
- **The chat loop** (`chat_loop.dfy`, module `ChatLoop`). `Strip` is
  `str.strip()`, and `Classify` sorts a line into `Quit`, `Reprompt` or
  `Fetch`. `Step` also updates `input_items`. `Respond` gives the printed
  outcome of one pass, with the chat-completion service as a parameter. `Run`
  is the loop over a finite sequence of input lines. Classifying a line has no
  side effects, so `Run` classifies every line first (`Actions`). Then, up to
  and including the first exit, it folds `Respond` over the actions
  (`Replies`, what is printed) and folds `Step`'s update over them (`Record`,
  what `input_items` becomes).
- `scenarios.dfy` holds concrete runs. One is the request line of the
  session log at the end of `maini.py`. Others are the two-entry transcript
  `[00:00] Hello\n[01:05] world`, a 100-minute timestamp, the two error texts,
  `Bye`, and a non-URL line.

Modelling decisions:

- **Leftmost match.** `re.search` returns the leftmost match. The trailing
  `.*` can always match the empty string, so it neither rejects a match nor
  moves the capture. The two alternatives start with different characters
  (`v` and `/`), so at most one of them can start at a given position. One
  might read the greedy `.*` as making the engine report the *last* `v=` or
  `/`. It does not, and the model follows the code: the leftmost position wins
  (`VideoId.LeftmostMatchWins`).
  One consequence is that an earlier path segment of 11 identifier characters
  wins over a later `v=`.
- **Whole seconds.** A start time is a `nat` number of seconds, with the floor
  already applied. For a finite non-negative float `t`, `int(t // 60)` equals
  `floor(t) / 60` and `int(t % 60)` equals `floor(t) % 60`. So flooring first
  loses nothing, and Dafny's `/` and `%` agree with Python's on these values.
- **Errors as values.** A raised exception is `Outcomes.Result.Err` carrying
  its message, which is what `str(e)` prints. The `ValueError` for a URL with
  no identifier is raised before the `try` at `maini.py:43`. So
  `FetchYoutubeTranscript` returns `Err` for it, and the loop prints it. Every
  failure inside the `try` becomes the returned text
  `"Error: " + msg + ". This might be …"`. That includes the empty transcript,
  whose message already ends in a period, so the text has `..`.
- **Services.** The transcript service is a parameter
  `service: string -> FetchOutcome`. The chat-completion service is a
  parameter `complete: string -> Result<string>`, taking the content of the one
  user message. Both are pure functions in the model.
- **Lower-casing.** `Lower` maps only `A`–`Z`. This does not change the exit
  test. Python's `lower()` maps no non-ASCII character to a string made only
  of the ASCII letters of `exit`, `quit` and `bye`. (`İ` becomes `i` followed
  by a combining dot, and the Kelvin sign becomes `k`.) So a line that
  `lower()` sends into `['exit', 'quit', 'bye']` is all ASCII, and `Lower`
  treats it the same way.
- **White space.** `Strip` removes exactly the characters for which Python's
  `str.isspace` is true (`ChatLoop.IsSpace` lists them).

## Model

| member | source | states |
|---|---|---|
| VideoId.FirstMatch | maini.py:35-36 | `re.search` tries positions left to right. The result is the first position at or after `from` where `v=` or `/` is followed by 11 characters of `[0-9A-Za-z_-]`, and no position before it matches. `None` means that no position from `from` on matches. |
| VideoId.ExtractVideoId | maini.py:35-41 | A success is exactly 11 characters, all from `[0-9A-Za-z_-]`. It is the capture of a match at some position with no match before it. The result is an error exactly when no position matches, and the error message is "Invalid YouTube URL". |
| VideoId.LeftmostMatchWins | maini.py:35-36 | If a match starts at `i` and none starts earlier, the result is the capture at `i`. Later `v=` or `/` occurrences do not matter, and neither does the trailing `.*`. |
| VideoId.SuffixIrrelevant | maini.py:35-36 | If a URL yields an identifier, appending any text to it does not change the identifier. The match is leftmost, and the trailing `.*` takes whatever follows. |
| VideoId.NoMarkerNoId | maini.py:38-39 | A URL with neither `/` nor `v` fails with "Invalid YouTube URL". |
| Decimal.ToDecimal | maini.py:55 | `str(n)` is a non-empty digit string with no leading zero. It is one digit exactly when `n < 10` and at most two digits exactly when `n < 100`. |
| Decimal.ValueOfToDecimal | maini.py:55 | Read back in base 10, the rendering of `n` is `n`. |
| Decimal.Pad2 | maini.py:55 | `{n:02d}` is `str(n)` left-padded with `'0'` to width 2 and never truncated. It is exactly 2 characters when `n < 100` and longer otherwise. It is all digits. From `n >= 10` on it is `str(n)` itself, so no zero is added beyond width 2. |
| Decimal.Pad2Value | maini.py:55 | The padded field reads back as `n`, so the padding adds only leading zeros. |
| Transcript.Timestamp | maini.py:53-55 | The tag starts with `[` and ends with `]`, with `:` four characters from the end, so the seconds field is always exactly two characters. That those characters are digits is stated by `TimestampFields`. |
| Transcript.TimestampChars | maini.py:53-55 | The tag's only `]` is its last character, and it contains no line break. |
| Transcript.TimestampFields | maini.py:53-55 | The minutes field reads as `start / 60` and the seconds field as `start % 60`, which is below 60. Minutes times 60 plus seconds gives back `start`. |
| Transcript.TimestampRoundTrip | maini.py:53-55 | Parsing a tag as `[digits:two digits below 60]` gives back the start it was built from. |
| Transcript.FormatEntry | maini.py:57 | An entry's line is its `[MM:SS]` timestamp, then one space, then the caption text unaltered. It contains a line break exactly when the caption text does. |
| Transcript.EntryRoundTrip | maini.py:55-57 | Reading a line as tag, up to the first `]`, then one space, then text, gives back the entry: the line carries both the start and the text. |
| Transcript.ParseLinesOfFormatted | maini.py:51-58 | Reading the formatted lines back one by one gives the entries, in order. |
| Transcript.FormatLines | maini.py:51-58 | There is one formatted line per entry, and line `k` is entry `k`'s line. |
| Lines.Join | maini.py:61 | `"\n".join` of one line is that line. Otherwise the result opens with the first line, followed by a line break when there is a second line. `JoinAppend` fixes the whole text for any lines. |
| Lines.JoinAppend | maini.py:61 | For two non-empty lists of lines, `"\n".join` of their concatenation is the join of the first, one line break, then the join of the second. The lines may contain line breaks. |
| Lines.SplitAtFirst | maini.py:61 | Splitting stops at the first separator: a newline-free piece before it comes out whole. |
| Lines.SplitJoin | maini.py:61 | For one or more lines with no line break in them, splitting `"\n".join(lines)` on `"\n"` gives back the lines in order. |
| Lines.JoinSeparatorCount | maini.py:61 | For `n >= 1` lines with no line break in them, `"\n".join` inserts exactly `n - 1` line breaks. |
| Transcript.FormatTranscript | maini.py:50-61 | The formatted transcript is empty exactly when there are no entries, and otherwise opens with the first entry's line. `FormatOneEntry` and `FormatTranscriptAppend` fix the whole text for any entries. |
| Transcript.FormatLinesAppend | maini.py:55-58 | Formatting a concatenation of entries gives the lines of the first part, then those of the second, in order. |
| Transcript.FormatOneEntry | maini.py:50-61 | The transcript of one entry is that entry's line. |
| Transcript.FormatTranscriptAppend | maini.py:50-61 | For two non-empty lists of entries, the transcript of their concatenation is the first transcript, one line break, then the second transcript. Caption texts may contain line breaks. |
| Transcript.FormatTranscriptLines | maini.py:50-61 | For `n >= 1` entries whose texts have no line break, the output splits into exactly `n` lines in input order. Line `k` is `Timestamp(start_k) + " " + text_k`, and there are `n - 1` separators. |
| Transcript.TranscriptRoundTrip | maini.py:50-61 | For `n >= 1` entries whose texts have no line break, the entries can be read back from the formatted transcript, so formatting loses nothing. |
| Transcript.ErrorText | maini.py:65 | The error text is `"Error: "`, then the whole exception message, then a period, then the fixed hint, each at a fixed offset, so the message can be read back out. |
| Transcript.TranscriptText | maini.py:47-65 | The text is never empty. It starts with `[` exactly when the service returned at least one entry. A service failure with message `m` gives `"Error: " + m + "." + hint`. An empty transcript gives the same shape with "No transcript available for this video.". For at least one entry the text is exactly the formatted transcript, `"\n".join` of the formatted lines. |
| Transcript.FetchYoutubeTranscript | maini.py:34-65 | The function raises "Invalid YouTube URL" exactly when no position matches, and that error is not turned into text. Otherwise it returns the transcript text for the leftmost identifier. |
| ChatLoop.Strip | maini.py:85 | `strip()` returns a slice `s[i..j]` with only white space before `i` and after `j`, and it neither begins nor ends with white space. |
| ChatLoop.StripUnpadded | maini.py:85 | A string that neither begins nor ends with white space comes back from `strip()` unchanged. |
| ChatLoop.StripIdempotent | maini.py:85 | Stripping an already stripped line changes nothing. |
| ChatLoop.Lower | maini.py:88 | Lower-casing keeps the length and leaves no capital `A`–`Z`. Every character is kept, or it is a capital replaced by its small letter. |
| ChatLoop.LowerOfSpelling | maini.py:88 | A line that spells a word of small letters, with each letter in either case, lower-cases to that word. |
| ChatLoop.LongLineIsNoExit | maini.py:88 | A line longer than four characters is never an exit command. |
| ChatLoop.ExitIff | maini.py:88 | A line is an exit command exactly when it spells `exit`, `quit` or `bye` with each letter in either case. |
| ChatLoop.Contains | maini.py:93 | `sub in s` holds exactly when `sub` occurs at some position of `s`. |
| ChatLoop.Classify | maini.py:85-95 | The result is `Quit` exactly for a stripped line that lower-cases to an exit word. It is `Reprompt` exactly for a non-exit line with no occurrence of "youtube.com". Otherwise it is `Fetch` of the stripped line, which contains "youtube.com". |
| ChatLoop.StripTrailingBlanks | maini.py:85 | White space typed after a line with no white space at either end is cut off again, leaving that line. |
| ChatLoop.FetchWhenMentioned | maini.py:85-95 | A line containing "youtube.com" with no white space at either end, typed with any trailing white space, is fetched for as the line without that white space. |
| ChatLoop.Step | maini.py:85-97 | Exit and reprompt leave `input_items` unchanged. A fetch makes `input_items` the old turns followed by exactly one turn, `{"role": "user", "content": stripped line}`. |
| ChatLoop.Respond | maini.py:87-123 | Exit prints the farewell and reprompt asks for a URL, and exactly those do. A URL with no identifier prints "Error: Invalid YouTube URL". Otherwise the completion service is asked with `"summary of the transcript: "` followed by the transcript text, and its reply or error is printed. |
| ChatLoop.FailedFetchIsSummarized | maini.py:63-65 | When the transcript service fails, its error text is still sent to the completion service as if it were a transcript, and that reply is printed. |
| ChatLoop.Run | maini.py:83-125 | The loop produces at most one output per input line, and `input_items` only grows. |
| ChatLoop.RunStopsAtFirstExit | maini.py:83-95 | Output `k` answers line `k` in order. No line before the last one read is an exit command. The loop stops early only after an exit command, and lines after the first exit are never read. |
| ChatLoop.RepliesLength | maini.py:83-95 | The loop prints one output for each line it reads: every line, or up to and including the first exit command. |
| ChatLoop.RecordHistory | maini.py:77-97 | Over the actions the loop carries out, `input_items` gains exactly the turns of the fetches, in order. |
| ChatLoop.RunHistory | maini.py:77-97 | After the loop, `input_items` is the starting list followed by one user turn per fetched line read, in input order. Exit and reprompt lines add nothing. |
| Scenarios.ExtractFromWatchLine | maini.py:136 | The session log's request line `summary "https://www.youtube.com/watch?v=-BUs1CPHKfU&t=1s"` yields `-BUs1CPHKfU`. The earlier `/` positions are not followed by 11 identifier characters. |
| Scenarios.WatchLineFetches | maini.py:85-97 | That line, typed with the seven blanks the log shows after the closing quote, is a fetch of the line without the blanks, and that stripped line is recorded as one user turn. |
| Scenarios.FormatTwoEntries | maini.py:50-61 | Entries (0, "Hello") and (65, "world") give `"[00:00] Hello\n[01:05] world"`. |
| Scenarios.HundredMinutes | maini.py:53-55 | A start of 6000 seconds renders as `[100:00]`: three minute digits, not truncated. |
| Scenarios.EmptyTranscriptText | maini.py:47-48 | An empty transcript yields "Error: No transcript available for this video.. This might be …", with a doubled period. |
| Scenarios.CaptionsDisabledText | maini.py:63-65 | A service failure "captions disabled" yields text starting "Error: captions disabled". |
| Scenarios.ByeQuits | maini.py:88-90 | `Bye` is an exit command. |
| Scenarios.PlainTextReprompts | maini.py:93-95 | `not a url` is sent back for a valid URL, and `input_items` is unchanged. |

## Left out

- The transcript service call (`maini.py:45`) and the chat-completion call (`maini.py:106-120`) are network clients. They are parameters here. They are pure functions, so the model does not cover a service that answers differently on a second call. The model also does not cover the attribution headers, the model name or the client's timeouts.
- Infinite and NaN start times: `int(t // 60)` raises `ValueError` inside the `try` (`maini.py:53-54`; in Python `inf // 60` is already NaN), so the source returns `Error: cannot convert float NaN to integer. This might be due to no available transcript for the video.` A `nat` start cannot express such a value.
- Fractional and negative start times: starts are whole seconds, with the floor already taken (see above). Negative starts are outside the model.
- A transcript entry missing `start` or `text` would raise inside the `try`. `Entry` always has both fields, so the model does not reach that path.
- Console I/O: `input` and the end of input raising `EOFError`. `Run` simply ends when the lines run out. The farewell, the URL request, the reply and the `Error: …` line are the `Output` values. The banner (`maini.py:79-81`), `Fetching transcript...` (`maini.py:99`) and the blank line after each response (`maini.py:125`) carry no data and are not modelled. `Error fetching transcript: {e}` (`maini.py:64`) repeats the message that the returned error text already holds. It is not an `Output`, so on a failed fetch the model shows only the reply, not this extra line.
- `load_dotenv`, the client construction, the unused `Agent` object, the `instructions` string and the `asyncio` entry point (`maini.py:6-19`, `69-80`, `127-128`) are set-up code with no logic of their own.
- ChatLoop.Lower: does not model Python's full Unicode lower-casing. Only `A`–`Z` are mapped, which gives the same exit decision (see above). It does not give the same string for non-ASCII letters.
- Lines.SplitJoin: assumes the lines contain no line break. A line with one inside would split into several.
- Lines.JoinSeparatorCount: counts only the inserted separators, so it assumes the lines contain no line break.
- Transcript.FormatTranscriptLines: assumes caption texts contain no line break. A text with one is still joined in order (`FormatTranscriptAppend`), but its line then splits into several.
- Transcript.TranscriptRoundTrip: assumes caption texts contain no line break, for the same reason.

=== FILE: chat_loop.dfy ===
/** One pass of the `while True` loop of `main` (maini.py), and the loop
    itself over a finite sequence of input lines. Console input and output
    are the sequence of lines read and the sequence of `Output`s; the
    transcript service and the chat-completion service are parameters. */
module ChatLoop {
  import opened Outcomes
  import opened VideoId
  import opened Transcript

  /** Python's `str.isspace`: the characters `str.strip()` removes. */
  predicate IsSpace(c: char) {
    var n := c as int;
    (9 <= n <= 13) || (28 <= n <= 32) || n == 0x85 || n == 0xA0 || n == 0x1680
    || (0x2000 <= n <= 0x200A) || n == 0x2028 || n == 0x2029 || n == 0x202F
    || n == 0x205F || n == 0x3000
  }

  /** Where a run of white space starting at `i` ends: the first index at or
      after `i` that holds no white space, or `|s|`. */
  function SpaceRunEnd(s: string, i: nat): (n: nat)
    requires i <= |s|
    ensures i <= n <= |s|
    ensures forall k :: i <= k < n ==> IsSpace(s[k])
    ensures n == |s| || !IsSpace(s[n])
    decreases |s| - i
  {
    if i < |s| && IsSpace(s[i]) then SpaceRunEnd(s, i + 1) else i
  }

  /** Where a run of white space ending at `j` starts, not going below `lo`:
      the index just past the last non-space character before `j`. */
  function SpaceRunStart(s: string, lo: nat, j: nat): (n: nat)
    requires lo <= j <= |s|
    ensures lo <= n <= j
    ensures forall k :: n <= k < j ==> IsSpace(s[k])
    ensures n == lo || !IsSpace(s[n - 1])
    decreases j
  {
    if lo < j && IsSpace(s[j - 1]) then SpaceRunStart(s, lo, j - 1) else j
  }

  /** `s[i..j]` is `s` with only white space cut from either end. */
  predicate TrimmedSlice(s: string, i: nat, j: nat) {
    && i <= j <= |s|
    && (forall k :: 0 <= k < i ==> IsSpace(s[k]))
    && (forall k :: j <= k < |s| ==> IsSpace(s[k]))
  }

  /** `str.strip()`: skip white space from the left, then from the right but
      not past the left end. The result is cut out of `s` with only white
      space around it, and neither starts nor ends with white space. */
  function Strip(s: string): (r: string)
    ensures exists i: nat, j: nat :: TrimmedSlice(s, i, j) && r == s[i..j]
    ensures r == [] || (!IsSpace(r[0]) && !IsSpace(r[|r| - 1]))
  {
    var i := SpaceRunEnd(s, 0);
    var j := SpaceRunStart(s, i, |s|);
    assert TrimmedSlice(s, i, j);
    s[i..j]
  }

  /** A string with no white space at either end is its own strip. */
  lemma StripUnpadded(s: string)
    requires s == [] || (!IsSpace(s[0]) && !IsSpace(s[|s| - 1]))
    ensures Strip(s) == s
  {
    if s != [] {
      assert SpaceRunEnd(s, 0) == 0;
      assert SpaceRunStart(s, 0, |s|) == |s|;
      assert s[0..|s|] == s;
    }
  }

  /** Stripping twice strips nothing more. */
  lemma StripIdempotent(s: string)
    ensures Strip(Strip(s)) == Strip(s)
  {
    StripUnpadded(Strip(s));
  }

  function LowerChar(c: char): char {
    if 'A' <= c <= 'Z' then ((c as int) - ('A' as int) + ('a' as int)) as char else c
  }

  /** `str.lower()` on the ASCII letters (see README for why the other
      letters do not matter to the exit test): no capital is left, and every
      character is kept or is a capital turned into its small letter. */
  function Lower(s: string): (r: string)
    ensures |r| == |s|
    ensures forall k :: 0 <= k < |r| ==> !('A' <= r[k] <= 'Z')
    ensures forall k :: 0 <= k < |s| ==>
              r[k] == s[k] || ('A' <= s[k] <= 'Z' && r[k] as int == s[k] as int + 32)
  {
    seq(|s|, k requires 0 <= k < |s| => LowerChar(s[k]))
  }

  const ExitWords: seq<string> := ["exit", "quit", "bye"]

  /** `user_input.lower() in ['exit', 'quit', 'bye']`. */
  predicate IsExitCommand(input: string) {
    Lower(input) in ExitWords
  }

  /** `c` is the small letter `lc` or its capital, or `lc` itself. */
  predicate SameIgnoringCase(c: char, lc: char) {
    c == lc || ('a' <= lc <= 'z' && c as int == lc as int - 32)
  }

  lemma ExitWordsAreSmallLetters(w: string)
    requires w in ExitWords
    ensures forall k :: 0 <= k < |w| ==> 'a' <= w[k] <= 'z'
  {
  }

  /** Each character of a line is its lower-cased character or that
      character's capital. */
  lemma LowerSameIgnoringCase(input: string)
    ensures forall k :: 0 <= k < |input| ==> SameIgnoringCase(input[k], Lower(input)[k])
  {
  }

  /** A line that spells a word of small letters in either case lower-cases
      to that word. */
  lemma LowerOfSpelling(input: string, w: string)
    requires |input| == |w| && forall k :: 0 <= k < |w| ==> 'a' <= w[k] <= 'z'
    requires forall k :: 0 <= k < |w| ==> SameIgnoringCase(input[k], w[k])
    ensures Lower(input) == w
  {
  }

  /** A line longer than every exit word is no exit command. */
  lemma LongLineIsNoExit(input: string)
    requires |input| > 4
    ensures !IsExitCommand(input)
  {
    assert |Lower(input)| == |input|;
  }

  /** A line is an exit command exactly when it spells `exit`, `quit` or
      `bye` with each letter in either case. */
  lemma ExitIff(input: string)
    ensures IsExitCommand(input) <==>
              exists w :: w in ExitWords && |input| == |w|
                          && forall k :: 0 <= k < |w| ==> SameIgnoringCase(input[k], w[k])
  {
    if IsExitCommand(input) {
      LowerSameIgnoringCase(input);
    }
    if exists w :: w in ExitWords && |input| == |w|
                   && forall k :: 0 <= k < |w| ==> SameIgnoringCase(input[k], w[k]) {
      var w :| w in ExitWords && |input| == |w|
               && forall k :: 0 <= k < |w| ==> SameIgnoringCase(input[k], w[k]);
      ExitWordsAreSmallLetters(w);
      LowerOfSpelling(input, w);
    }
  }

  /** The substring the loop looks for before fetching. */
  const UrlMarker: string := "youtube.com"

  predicate OccursAt(s: string, sub: string, i: nat) {
    i + |sub| <= |s| && s[i..i + |sub|] == sub
  }

  function ContainsFrom(s: string, sub: string, from: nat): (r: bool)
    ensures r <==> exists i: nat :: from <= i && OccursAt(s, sub, i)
    decreases |s| - from
  {
    if from + |sub| > |s| then false
    else if s[from..from + |sub|] == sub then assert OccursAt(s, sub, from); true
    else ContainsFrom(s, sub, from + 1)
  }

  /** Python's `sub in s` on strings. */
  function Contains(s: string, sub: string): (r: bool)
    ensures r <==> exists i: nat :: OccursAt(s, sub, i)
  {
    ContainsFrom(s, sub, 0)
  }

  /** What one input line makes the loop do. */
  datatype Action = Quit | Reprompt | Fetch(url: string)

  /** `{"content": ..., "role": "user"}`, an entry of `input_items`. */
  datatype Turn = Turn(role: string, content: string)

  /** Lines 85-95. The three outcomes of a line: exit exactly for an exit
      word (whatever the URL test would say), reprompt exactly for a
      non-exit line with no occurrence of "youtube.com", and otherwise a
      fetch for the stripped line, which then holds "youtube.com". */
  function Classify(line: string): (a: Action)
    ensures a == Quit <==> IsExitCommand(Strip(line))
    ensures a == Reprompt <==>
              !IsExitCommand(Strip(line)) && forall i: nat :: !OccursAt(Strip(line), UrlMarker, i)
    ensures a.Fetch? ==> a.url == Strip(line) && exists i: nat :: OccursAt(a.url, UrlMarker, i)
  {
    var input := Strip(line);
    if IsExitCommand(input) then Quit
    else if !Contains(input, UrlMarker) then Reprompt
    else Fetch(input)
  }

  /** Scanning left from `j` over white space stops at the first non-space
      character met, or at `lo`. */
  lemma SpaceRunStartAt(s: string, lo: nat, m: nat, j: nat)
    requires lo <= m <= j <= |s|
    requires forall k :: m <= k < j ==> IsSpace(s[k])
    requires m == lo || !IsSpace(s[m - 1])
    ensures SpaceRunStart(s, lo, j) == m
  {
  }

  /** Trailing white space typed after an unpadded line is cut off again. */
  lemma StripTrailingBlanks(line: string, blanks: string)
    requires line != [] && !IsSpace(line[0]) && !IsSpace(line[|line| - 1])
    requires forall k :: 0 <= k < |blanks| ==> IsSpace(blanks[k])
    ensures Strip(line + blanks) == line
  {
    var s := line + blanks;
    assert SpaceRunEnd(s, 0) == 0;
    SpaceRunStartAt(s, 0, |line|, |s|);
    assert s[0..|line|] == line;
  }

  /** A line holding "youtube.com" that neither starts nor ends with white
      space, typed with any trailing white space, is fetched for without
      that white space. */
  lemma FetchWhenMentioned(line: string, blanks: string, i: nat)
    requires OccursAt(line, UrlMarker, i)
    requires !IsSpace(line[0]) && !IsSpace(line[|line| - 1])
    requires forall k :: 0 <= k < |blanks| ==> IsSpace(blanks[k])
    ensures Classify(line + blanks) == Fetch(line)
  {
    StripTrailingBlanks(line, blanks);
    LongLineIsNoExit(line);
  }

  datatype Iteration = Iteration(action: Action, history: seq<Turn>)

  /** The turns a pass adds to `input_items` for an action: the stripped
      line for a fetch, nothing otherwise. */
  function TurnsOf(a: Action): seq<Turn> {
    match a
    case Fetch(url) => [Turn("user", url)]
    case _ => []
  }

  /** Lines 85-97: classify the line and, for a fetch, append the stripped
      line to `input_items` as a user turn. */
  function Step(line: string, history: seq<Turn>): (r: Iteration)
    ensures r.action == Classify(line)
    ensures !r.action.Fetch? ==> r.history == history
    ensures r.action.Fetch? ==> r.history == history + [Turn("user", Strip(line))]
  {
    var a := Classify(line);
    Iteration(a, history + TurnsOf(a))
  }

  /** What a pass of the loop prints: the farewell, the request for a URL,
      the model's reply, or `f"Error: {e}"` with `e`'s message. */
  datatype Output = Goodbye | AskForUrl | Reply(text: string) | ErrorLine(message: string)

  /** The text put before the transcript in the one message sent to the
      chat-completion service. */
  const SummaryPrompt: string := "summary of the transcript: "

  /** Lines 88-123 for a classified line. A URL with no identifier raises
      before any service is called; otherwise the transcript text, error text
      included, is sent to the chat-completion service. */
  function Respond(a: Action, service: string -> FetchOutcome, complete: string -> Result<string>): (out: Output)
    ensures a == Quit <==> out == Goodbye
    ensures a == Reprompt <==> out == AskForUrl
    ensures a.Fetch? && (forall i: nat :: !MatchAt(a.url, i)) ==> out == ErrorLine(InvalidUrlMessage)
    ensures a.Fetch? && ExtractVideoId(a.url).Ok? ==>
              var reply := complete(SummaryPrompt + TranscriptText(service(ExtractVideoId(a.url).value)));
              out == (if reply.Ok? then Reply(reply.value) else ErrorLine(reply.message))
  {
    match a
    case Quit => Goodbye
    case Reprompt => AskForUrl
    case Fetch(url) =>
      match FetchYoutubeTranscript(url, service)
      case Err(message) => ErrorLine(message)
      case Ok(text) =>
        match complete(SummaryPrompt + text)
        case Err(message) => ErrorLine(message)
        case Ok(reply) => Reply(reply)
  }

  /** A failed transcript fetch is not short-circuited: its error text is
      summarised as if it were a transcript. */
  lemma FailedFetchIsSummarized(url: string, service: string -> FetchOutcome,
                                complete: string -> Result<string>, message: string)
    requires ExtractVideoId(url).Ok? && service(ExtractVideoId(url).value) == FetchFailed(message)
    requires complete(SummaryPrompt + ErrorText(message)).Ok?
    ensures Respond(Fetch(url), service, complete) == Reply(complete(SummaryPrompt + ErrorText(message)).value)
  {
  }

  datatype Session = Session(outputs: seq<Output>, history: seq<Turn>)

  /** Every input line classified, in order. Classification is pure, so the
      loop's behaviour is a function of this sequence and of where its first
      `Quit` is. */
  function Actions(lines: seq<string>): (acts: seq<Action>)
    ensures |acts| == |lines|
    ensures forall k :: 0 <= k < |lines| ==> acts[k] == Classify(lines[k])
  {
    seq(|lines|, k requires 0 <= k < |lines| => Classify(lines[k]))
  }

  /** The number of actions the loop carries out: all of them, or up to and
      including the first exit. */
  function ReadCount(acts: seq<Action>): (n: nat)
    ensures n <= |acts|
  {
    if acts == [] then 0
    else if acts[0] == Quit then 1
    else 1 + ReadCount(acts[1..])
  }

  /** The user turns recorded for `acts`: one per fetch, in order. */
  function FetchTurns(acts: seq<Action>): seq<Turn> {
    if acts == [] then [] else TurnsOf(acts[0]) + FetchTurns(acts[1..])
  }

  /** What the loop prints, one output per action carried out. */
  function Replies(acts: seq<Action>, service: string -> FetchOutcome,
                   complete: string -> Result<string>): (r: seq<Output>)
    ensures |r| <= |acts|
  {
    if acts == [] then []
    else
      var out := Respond(acts[0], service, complete);
      if acts[0] == Quit then [out] else [out] + Replies(acts[1..], service, complete)
  }

  /** `input_items` as the loop leaves it: every pass before the exit adds
      the turns of its action, as `Step` does. */
  function Record(acts: seq<Action>, history: seq<Turn>): (r: seq<Turn>)
    ensures |r| >= |history|
  {
    if acts == [] || acts[0] == Quit then history
    else Record(acts[1..], history + TurnsOf(acts[0]))
  }

  /** The loop over the lines, until and including the first exit command:
      what it prints and what it leaves in `input_items`. */
  function Run(lines: seq<string>, history: seq<Turn>, service: string -> FetchOutcome,
               complete: string -> Result<string>): (r: Session)
    ensures |r.outputs| <= |lines|
    ensures |r.history| >= |history|
  {
    var acts := Actions(lines);
    Session(Replies(acts, service, complete), Record(acts, history))
  }

  lemma {:induction false} RepliesLength(acts: seq<Action>, service: string -> FetchOutcome,
                                         complete: string -> Result<string>)
    ensures |Replies(acts, service, complete)| == ReadCount(acts)
  {
    if acts != [] && acts[0] != Quit {
      RepliesLength(acts[1..], service, complete);
    }
  }

  lemma {:induction false} RepliesStopAtFirstExit(acts: seq<Action>, service: string -> FetchOutcome,
                                                  complete: string -> Result<string>)
    ensures var r := Replies(acts, service, complete);
            && (forall k :: 0 <= k < |r| ==> r[k] == Respond(acts[k], service, complete))
            && (forall k :: 0 <= k < |r| - 1 ==> acts[k] != Quit)
            && (|r| < |acts| ==> r != [] && acts[|r| - 1] == Quit)
            && (|r| == |acts| || acts[|r| - 1] == Quit)
  {
    if acts != [] && acts[0] != Quit {
      RepliesStopAtFirstExit(acts[1..], service, complete);
    }
  }

  /** The loop answers every line it reads, in order, and reads up to the
      first exit command and no further: lines after it are never read, and
      the input runs out only if there is none. */
  lemma RunStopsAtFirstExit(lines: seq<string>, history: seq<Turn>,
                            service: string -> FetchOutcome, complete: string -> Result<string>)
    ensures var r := Run(lines, history, service, complete);
            && (forall k :: 0 <= k < |r.outputs| ==> r.outputs[k] == Respond(Classify(lines[k]), service, complete))
            && (forall k :: 0 <= k < |r.outputs| - 1 ==> Classify(lines[k]) != Quit)
            && (|r.outputs| < |lines| ==> r.outputs != [] && Classify(lines[|r.outputs| - 1]) == Quit)
            && (|r.outputs| == |lines| || Classify(lines[|r.outputs| - 1]) == Quit)
  {
    RepliesStopAtFirstExit(Actions(lines), service, complete);
  }

  lemma {:induction false} RecordHistory(acts: seq<Action>, history: seq<Turn>)
    ensures Record(acts, history) == history + FetchTurns(acts[..ReadCount(acts)])
  {
    if acts != [] {
      var read := acts[..ReadCount(acts)];
      assert read[0] == acts[0];
      if acts[0] == Quit {
        assert read[1..] == [];
      } else {
        RecordHistory(acts[1..], history + TurnsOf(acts[0]));
        assert read[1..] == acts[1..][..ReadCount(acts[1..])];
      }
      assert FetchTurns(read) == TurnsOf(read[0]) + FetchTurns(read[1..]);
    }
  }

  /** `input_items` after the loop: the history it started with, followed by
      one user turn per fetched line read, in order; exit and reprompt lines
      add nothing. */
  lemma RunHistory(lines: seq<string>, history: seq<Turn>,
                   service: string -> FetchOutcome, complete: string -> Result<string>)
    ensures var r := Run(lines, history, service, complete);
            r.history == history + FetchTurns(Actions(lines)[..|r.outputs|])
  {
    RepliesLength(Actions(lines), service, complete);
    RecordHistory(Actions(lines), history);
  }
}

=== FILE: decimal.dfy ===
/** Decimal rendering of non-negative integers, as Python's `str(n)` and the
    `{n:02d}` format specification produce it. */
module Decimal {

  predicate IsDigit(c: char) {
    '0' <= c <= '9'
  }

  predicate AllDigits(s: string) {
    forall k :: 0 <= k < |s| ==> IsDigit(s[k])
  }

  function DigitChar(d: nat): (c: char)
    requires d < 10
    ensures IsDigit(c)
  {
    (('0' as int) + d) as char
  }

  function DigitValue(c: char): (d: nat)
    requires IsDigit(c)
    ensures d < 10
  {
    (c as int) - ('0' as int)
  }

  /** The value of a digit string read in base 10; leading zeros count for
      nothing and the empty string reads as 0. */
  function Value(s: string): nat
    requires AllDigits(s)
  {
    if s == [] then 0 else Value(s[..|s| - 1]) * 10 + DigitValue(s[|s| - 1])
  }

  /** `str(n)` for `n >= 0`: the shortest base-10 rendering. */
  function ToDecimal(n: nat): (r: string)
    ensures |r| >= 1 && AllDigits(r)
    ensures |r| > 1 ==> r[0] != '0'
    ensures n < 10 <==> |r| == 1
    ensures n < 100 <==> |r| <= 2
    decreases n
  {
    if n < 10 then [DigitChar(n)] else ToDecimal(n / 10) + [DigitChar(n % 10)]
  }

  /** Reading back the rendering of `n` gives `n`. */
  lemma {:induction false} ValueOfToDecimal(n: nat)
    ensures Value(ToDecimal(n)) == n
    decreases n
  {
    if n >= 10 {
      var r := ToDecimal(n);
      assert r[..|r| - 1] == ToDecimal(n / 10);
      ValueOfToDecimal(n / 10);
    }
  }

  /** A leading zero does not change the value of a digit string. */
  lemma {:induction false} ValueIgnoresLeadingZero(s: string)
    requires AllDigits(s)
    ensures AllDigits("0" + s) && Value("0" + s) == Value(s)
    decreases |s|
  {
    if s != [] {
      var z := "0" + s;
      assert z[..|z| - 1] == "0" + s[..|s| - 1];
      ValueIgnoresLeadingZero(s[..|s| - 1]);
    }
  }

  /** The `{n:02d}` field: `str(n)` left-padded with '0' to width 2 and never
      truncated. */
  function Pad2(n: nat): (r: string)
    ensures |r| >= 2 && (|r| == 2 <==> n < 100) && |ToDecimal(n)| <= |r|
    ensures AllDigits(r)
    ensures r[|r| - |ToDecimal(n)|..] == ToDecimal(n)
    ensures forall k :: 0 <= k < |r| - |ToDecimal(n)| ==> r[k] == '0'
    ensures n >= 10 ==> r == ToDecimal(n)
  {
    var d := ToDecimal(n);
    if |d| < 2 then "0" + d else d
  }

  /** The padded field reads back as `n`. */
  lemma Pad2Value(n: nat)
    ensures Value(Pad2(n)) == n
  {
    ValueOfToDecimal(n);
    if n < 10 {
      ValueIgnoresLeadingZero(ToDecimal(n));
    }
  }
}

=== FILE: lines.dfy ===
/** Joining lines with "\n" (Python's `"\n".join(lines)`) and its inverse,
    `s.split("\n")`. */
module Lines {

  const Newline: char := '\n'

  /** `"\n".join(lines)`. */
  function Join(lines: seq<string>): (r: string)
    ensures |lines| == 1 ==> r == lines[0]
    ensures |lines| >= 1 ==> |lines[0]| <= |r| && r[..|lines[0]|] == lines[0]
    ensures |lines| >= 2 ==> |lines[0]| < |r| && r[|lines[0]|] == Newline
    decreases |lines|
  {
    if |lines| == 0 then ""
    else if |lines| == 1 then lines[0]
    else lines[0] + [Newline] + Join(lines[1..])
  }

  /** Joining two non-empty runs of lines is joining each and putting one
      separator between them, whatever the lines hold. */
  lemma {:induction false} JoinAppend(a: seq<string>, b: seq<string>)
    requires a != [] && b != []
    ensures Join(a + b) == Join(a) + [Newline] + Join(b)
    decreases |a|
  {
    if |a| == 1 {
      assert (a + b)[1..] == b;
    } else {
      assert (a + b)[1..] == a[1..] + b;
      JoinAppend(a[1..], b);
    }
  }

  /** Index of the first occurrence of `c` in `s`. */
  function FirstIndex(s: string, c: char): (i: nat)
    requires c in s
    ensures i < |s| && s[i] == c && c !in s[..i]
  {
    if s[0] == c then 0 else 1 + FirstIndex(s[1..], c)
  }

  /** An index holding `c` with no `c` before it is the first index of `c`. */
  lemma FirstIndexAt(s: string, c: char, i: nat)
    requires i < |s| && s[i] == c && c !in s[..i]
    ensures FirstIndex(s, c) == i
  {
  }

  /** `s.split("\n")`: the maximal newline-free pieces of `s`, in order. */
  function Split(s: string): (r: seq<string>)
    ensures |r| >= 1
    ensures forall k :: 0 <= k < |r| ==> Newline !in r[k]
    ensures Join(r) == s
    decreases |s|
  {
    if Newline !in s then [s]
    else
      var i := FirstIndex(s, Newline);
      assert s == s[..i] + [Newline] + s[i + 1..];
      [s[..i]] + Split(s[i + 1..])
  }

  predicate NoNewlines(lines: seq<string>) {
    forall k :: 0 <= k < |lines| ==> Newline !in lines[k]
  }

  /** Splitting stops at the first separator: a newline-free piece before it
      comes out whole, and the rest is split on its own. */
  lemma SplitAtFirst(a: string, rest: string)
    requires Newline !in a
    ensures Split(a + [Newline] + rest) == [a] + Split(rest)
  {
    var s := a + [Newline] + rest;
    assert s[..|a|] == a;
    assert s[|a|] == Newline;
    FirstIndexAt(s, Newline, |a|);
    assert s[|a| + 1..] == rest;
  }

  /** Splitting a join of newline-free lines gives back the lines, in order:
      the separator is inserted between lines and nowhere else. */
  lemma {:induction false} SplitJoin(lines: seq<string>)
    requires |lines| >= 1 && NoNewlines(lines)
    ensures Split(Join(lines)) == lines
    decreases |lines|
  {
    if |lines| > 1 {
      SplitAtFirst(lines[0], Join(lines[1..]));
      SplitJoin(lines[1..]);
      assert lines == [lines[0]] + lines[1..];
    }
  }

  /** Joining n newline-free lines inserts exactly n - 1 separators. */
  lemma {:induction false} JoinSeparatorCount(lines: seq<string>)
    requires |lines| >= 1 && NoNewlines(lines)
    ensures multiset(Join(lines))[Newline] == |lines| - 1
    decreases |lines|
  {
    if |lines| == 1 {
      assert Newline !in multiset(lines[0]);
    } else {
      JoinSeparatorCount(lines[1..]);
      assert Newline !in multiset(lines[0]);
      assert multiset(Join(lines)) == multiset(lines[0]) + multiset([Newline]) + multiset(Join(lines[1..]));
    }
  }
}

=== FILE: outcomes.dfy ===
/** Failure-carrying wrappers shared by the rest of the model.
    A raised Python exception is modelled as `Err` carrying the exception's
    message (what `str(e)` would print). */
module Outcomes {

  datatype Option<+T> = None | Some(value: T)

  datatype Result<+T> = Ok(value: T) | Err(message: string)
}

=== FILE: scenarios.dfy ===
/** Concrete runs of the model: the request line of the session log at the
    end of maini.py, and small hand-made inputs. */
module Scenarios {
  import opened Outcomes
  import opened Decimal
  import opened VideoId
  import opened Lines
  import opened Transcript
  import opened ChatLoop

  /** No position inside a stretch free of '/' and 'v' can start a match. */
  lemma NoMatchInGap(pre: string, gap: string, post: string)
    requires '/' !in gap && 'v' !in gap
    ensures forall j: nat :: |pre| <= j < |pre| + |gap| ==> !MatchAt(pre + gap + post, j)
  {
    var u := pre + gap + post;
    forall j: nat | |pre| <= j < |pre| + |gap| ensures !MatchAt(u, j) {
      assert u[j] == gap[j - |pre|];
      if j + 2 <= |u| { assert u[j..j + 2][0] == u[j]; }
    }
  }

  /** A position not starting "v=" whose next 11 characters hold a character
      outside the class cannot start a match. */
  lemma BrokenRun(url: string, j: nat, m: nat)
    requires j < m <= j + IdLength && m < |url| && !IsIdChar(url[m])
    requires url[j] != 'v'
    ensures !MatchAt(url, j)
  {
    if j + 2 <= |url| { assert url[j..j + 2][0] == url[j]; }
  }

  // The request line of the session log,
  // summary "https://www.youtube.com/watch?v=-BUs1CPHKfU&t=1s"
  // cut where '/' or 'v' occurs.
  const Words: string := "summary \"https:"
  const Host: string := "www.youtube.com"
  const Path: string := "watch?"
  const Query: string := "v=-BUs1CPHKfU&t=1s\""
  const WatchLine: string := Words + "//" + Host + "/" + Path + Query

  lemma WordsNoMatch()
    ensures forall j: nat :: j < 15 ==> !MatchAt(WatchLine, j)
  {
    var rest := "//" + Host + "/" + Path + Query;
    assert WatchLine == Words + rest;
    assert [] + Words + rest == Words + rest;
    NoMatchInGap([], Words, rest);
  }

  lemma SlashesNoMatch()
    ensures forall j: nat :: 15 <= j < 17 ==> !MatchAt(WatchLine, j)
  {
    var url := WatchLine;
    BrokenRun(url, 15, 16);
    BrokenRun(url, 16, 20);
  }

  lemma HostNoMatch()
    ensures forall j: nat :: 17 <= j < 33 ==> !MatchAt(WatchLine, j)
  {
    var url := WatchLine;
    NoMatchInGap(Words + "//", Host, "/" + Path + Query);
    assert Words + "//" + Host + ("/" + Path + Query) == url;
    BrokenRun(url, 32, 38);
  }

  lemma PathNoMatch()
    ensures forall j: nat :: 33 <= j < 39 ==> !MatchAt(WatchLine, j)
  {
    NoMatchInGap(Words + "//" + Host + "/", Path, Query);
  }

  lemma QueryMatch()
    ensures MatchAt(WatchLine, 39)
    ensures CaptureAt(WatchLine, 39) == "-BUs1CPHKfU"
  {
    var url := WatchLine;
    assert url[39..] == Query;
    assert url[39..41] == Query[..2] == "v=";
    assert url[41..52] == Query[2..13] == "-BUs1CPHKfU";
  }

  /** The request line of the session log: words and a quote before a watch
      URL, a time parameter and a quote after it. The identifier is the 11
      characters after "v=". */
  lemma ExtractFromWatchLine()
    ensures ExtractVideoId(WatchLine) == Ok("-BUs1CPHKfU")
  {
    WordsNoMatch();
    SlashesNoMatch();
    HostNoMatch();
    PathNoMatch();
    QueryMatch();
    LeftmostMatchWins(WatchLine, 39);
  }

  lemma SmallTimestamps()
    ensures Timestamp(0) == "[00:00]" && Timestamp(65) == "[01:05]"
  {
    assert ToDecimal(0) == "0" && ToDecimal(1) == "1" && ToDecimal(5) == "5";
    assert Pad2(0) == "00" && Pad2(1) == "01" && Pad2(5) == "05";
  }

  lemma TwoEntryLines()
    ensures FormatEntry(Entry(0, "Hello")) == "[00:00] Hello"
    ensures FormatEntry(Entry(65, "world")) == "[01:05] world"
  {
    SmallTimestamps();
    assert "[00:00]" + " " + "Hello" == "[00:00] Hello";
    assert "[01:05]" + " " + "world" == "[01:05] world";
  }

  /** Two hand-made entries, the second at 65.7 s floored to 65. */
  lemma FormatTwoEntries()
    ensures FormatTranscript([Entry(0, "Hello"), Entry(65, "world")]) == "[00:00] Hello" + "\n" + "[01:05] world"
  {
    TwoEntryLines();
    var lines := FormatLines([Entry(0, "Hello"), Entry(65, "world")]);
    assert lines == ["[00:00] Hello", "[01:05] world"];
    assert Join(lines) == lines[0] + "\n" + Join(lines[1..]);
  }

  /** Minutes are padded to two digits but never cut: 100 minutes show as
      three digits. */
  lemma HundredMinutes()
    ensures Timestamp(6000) == "[100:00]"
  {
    assert ToDecimal(10) == "10";
    assert ToDecimal(100) == "100";
  }

  /** The empty transcript's message already ends in a period, so the error
      text carries two. */
  lemma EmptyTranscriptText()
    ensures TranscriptText(Fetched([])) == "Error: " + "No transcript available for this video" + ".." + ErrorHint
  {
    var head := "No transcript available for this video";
    assert TranscriptText(Fetched([])) == "Error: " + NoTranscriptMessage + "." + ErrorHint;
    assert NoTranscriptMessage == head + ".";
    assert "Error: " + (head + ".") + "." == "Error: " + head + "..";
  }

  /** A service failure is returned as text that starts with its message. */
  lemma CaptionsDisabledText()
    ensures TranscriptText(FetchFailed("captions disabled"))[..24] == "Error: captions disabled"
  {
    var m := "captions disabled";
    var r := TranscriptText(FetchFailed(m));
    assert r == ErrorText(m);
    assert r[..24] == r[..|ErrorPrefix|] + r[|ErrorPrefix|..|ErrorPrefix| + |m|];
    assert ErrorPrefix + m == "Error: captions disabled";
  }

  lemma ByeQuits()
    ensures Classify("Bye") == Quit
  {
    StripUnpadded("Bye");
    assert Lower("Bye") == "bye";
  }

  lemma PlainTextReprompts(history: seq<Turn>)
    ensures Step("not a url", history) == Iteration(Reprompt, history)
  {
    var line := "not a url";
    StripUnpadded(line);
  }

  lemma WatchLineMentionsYoutube()
    ensures OccursAt(WatchLine, UrlMarker, 21)
  {
    var line := WatchLine;
    assert line[21..32] == Host[4..] == "youtube.com";
  }

  /** The seven blanks typed after the closing quote in the session log. */
  const Blanks: string := "       "

  lemma WatchLineClassified()
    ensures Classify(WatchLine + Blanks) == Fetch(WatchLine)
  {
    WatchLineMentionsYoutube();
    assert WatchLine[0] == Words[0] == 's';
    assert WatchLine[|WatchLine| - 1] == Query[|Query| - 1] == '"';
    FetchWhenMentioned(WatchLine, Blanks, 21);
  }

  /** The session log's request line, trailing blanks included, is fetched
      for with the blanks stripped, and the stripped line is recorded as one
      more user turn. */
  lemma WatchLineFetches(history: seq<Turn>)
    ensures Step(WatchLine + Blanks, history) == Iteration(Fetch(WatchLine), history + [Turn("user", WatchLine)])
  {
    WatchLineClassified();
  }
}

=== FILE: transcript.dfy ===
/** Transcript formatting and the error handling of
    `fetch_youtube_transcript` (maini.py). */
module Transcript {
  import opened Outcomes
  import opened Decimal
  import opened Lines
  import opened VideoId

  /** One caption unit. `start` is in whole seconds: the source floors the
      service's fractional offset with `int(... // 60)` and `int(... % 60)`,
      which for a non-negative offset equals flooring it first. */
  datatype Entry = Entry(start: nat, text: string)

  /** What the transcript service gives back for a video identifier: the
      ordered entries, or the message of the exception it raised. */
  datatype FetchOutcome = Fetched(entries: seq<Entry>) | FetchFailed(message: string)

  const SecondsPerMinute: nat := 60

  /** The message of the `ValueError` raised for an empty transcript. */
  const NoTranscriptMessage: string := "No transcript available for this video."

  /** The fixed sentence the handler appends, after a period, to the
      exception message. */
  const ErrorHint: string := " This might be due to no available transcript for the video."

  const ErrorPrefix: string := "Error: "

  /** `f"Error: {str(e)}. This might be ..."`, the string returned in place
      of a transcript when anything inside the `try` raised: the message sits
      whole between the prefix and a period, and the hint follows. */
  function ErrorText(message: string): (r: string)
    ensures |r| == |ErrorPrefix| + |message| + 1 + |ErrorHint|
    ensures r[..|ErrorPrefix|] == ErrorPrefix
    ensures r[|ErrorPrefix|..|ErrorPrefix| + |message|] == message
    ensures r[|ErrorPrefix| + |message|] == '.'
    ensures r[|ErrorPrefix| + |message| + 1..] == ErrorHint
  {
    ErrorPrefix + message + "." + ErrorHint
  }

  /** `f"[{minutes:02d}:{seconds:02d}]"` with `minutes = start // 60` and
      `seconds = start % 60`. */
  function Timestamp(start: nat): (r: string)
    ensures |r| >= 7 && r[0] == '[' && r[|r| - 1] == ']'
    ensures r[|r| - 4] == ':'
  {
    "[" + Pad2(start / SecondsPerMinute) + ":" + Pad2(start % SecondsPerMinute) + "]"
  }

  /** The fields of a tag built from a minutes piece of at least two
      characters and a two-character seconds piece are those pieces. */
  lemma TagFields(mm: string, ss: string)
    requires |mm| >= 2 && |ss| == 2
    ensures var r := "[" + mm + ":" + ss + "]";
            |r| >= 7 && MinutesField(r) == mm && SecondsField(r) == ss
  {
  }

  /** The pieces of a tag: the padded minutes between '[' and ':', the two
      padded seconds digits between ':' and ']'. */
  lemma TimestampParts(start: nat)
    ensures var r := Timestamp(start);
            && MinutesField(r) == Pad2(start / SecondsPerMinute)
            && SecondsField(r) == Pad2(start % SecondsPerMinute)
  {
    TagFields(Pad2(start / SecondsPerMinute), Pad2(start % SecondsPerMinute));
  }

  /** A tag built from digit fields holds no ']' before its last character
      and no line break. */
  lemma TagChars(mm: string, ss: string)
    requires AllDigits(mm) && AllDigits(ss)
    ensures var r := "[" + mm + ":" + ss + "]";
            ']' !in r[..|r| - 1] && Newline !in r
  {
    var r := "[" + mm + ":" + ss + "]";
    assert ']' !in mm && Newline !in mm;
    assert ']' !in ss && Newline !in ss;
    assert r[..|r| - 1] == "[" + mm + ":" + ss;
  }

  lemma TimestampChars(start: nat)
    ensures var r := Timestamp(start);
            ']' !in r[..|r| - 1] && Newline !in r
  {
    TagChars(Pad2(start / SecondsPerMinute), Pad2(start % SecondsPerMinute));
  }

  /** The minutes field of a tag: between '[' and the ':' four characters
      from the end. */
  function MinutesField(tag: string): string
    requires |tag| >= 7
  {
    tag[1..|tag| - 4]
  }

  /** The seconds field of a tag: the two characters before the final ']'. */
  function SecondsField(tag: string): string
    requires |tag| >= 7
  {
    tag[|tag| - 3..|tag| - 1]
  }

  /** Reads a tag `[MM:SS]` back into seconds: MM is one or more digits, SS
      exactly two digits below 60. */
  function ParseTimestamp(tag: string): Option<nat> {
    if |tag| >= 7 && tag[0] == '[' && tag[|tag| - 1] == ']' && tag[|tag| - 4] == ':'
       && AllDigits(MinutesField(tag)) && AllDigits(SecondsField(tag))
       && Value(SecondsField(tag)) < SecondsPerMinute
    then Some(Value(MinutesField(tag)) * SecondsPerMinute + Value(SecondsField(tag)))
    else None
  }

  /** The two fields of a tag: the minutes field reads as `start / 60`, the
      seconds field as `start % 60`, which is below 60, and together they
      give back `start`. */
  lemma TimestampFields(start: nat)
    ensures var r := Timestamp(start);
            && AllDigits(MinutesField(r)) && AllDigits(SecondsField(r))
            && Value(MinutesField(r)) == start / SecondsPerMinute
            && Value(SecondsField(r)) == start % SecondsPerMinute < SecondsPerMinute
            && Value(MinutesField(r)) * SecondsPerMinute + Value(SecondsField(r)) == start
  {
    TimestampParts(start);
    Pad2Value(start / SecondsPerMinute);
    Pad2Value(start % SecondsPerMinute);
  }

  /** A tag reads back as the start it was made from. */
  lemma TimestampRoundTrip(start: nat)
    ensures ParseTimestamp(Timestamp(start)) == Some(start)
  {
    TimestampFields(start);
  }

  /** `f"{timestamp} {entry['text']}"`. */
  function FormatEntry(e: Entry): (r: string)
    ensures var t := Timestamp(e.start);
            |t| < |r| && r[..|t|] == t && r[|t|] == ' ' && r[|t| + 1..] == e.text
    ensures Newline in r <==> Newline in e.text
  {
    TimestampChars(e.start);
    Timestamp(e.start) + " " + e.text
  }

  /** Reads one formatted line back: the tag runs to the first ']', then one
      space, then the caption text. */
  function ParseEntry(line: string): Option<Entry> {
    if ']' !in line then None
    else
      var i := FirstIndex(line, ']');
      if i + 1 < |line| && line[i + 1] == ' ' then
        match ParseTimestamp(line[..i + 1])
        case None => None
        case Some(start) => Some(Entry(start, line[i + 2..]))
      else None
  }

  /** A line made of a well-formed tag, a space and any text parses as that
      tag's start and that text. */
  lemma ParseTaggedLine(tag: string, text: string, start: nat)
    requires ParseTimestamp(tag) == Some(start)
    requires ']' !in tag[..|tag| - 1]
    ensures ParseEntry(tag + " " + text) == Some(Entry(start, text))
  {
    var line := tag + " " + text;
    var i := |tag| - 1;
    assert line[..i] == tag[..i];
    assert line[i] == ']';
    FirstIndexAt(line, ']', i);
    assert line[..i + 1] == tag;
    assert line[i + 1] == ' ';
    assert line[i + 2..] == text;
  }

  lemma EntryRoundTrip(e: Entry)
    ensures ParseEntry(FormatEntry(e)) == Some(e)
  {
    TimestampChars(e.start);
    TimestampRoundTrip(e.start);
    ParseTaggedLine(Timestamp(e.start), e.text, e.start);
  }

  /** The lines of a transcript, one per entry, in entry order. */
  function FormatLines(entries: seq<Entry>): (lines: seq<string>)
    ensures |lines| == |entries|
    ensures forall k :: 0 <= k < |entries| ==> lines[k] == FormatEntry(entries[k])
  {
    if entries == [] then [] else [FormatEntry(entries[0])] + FormatLines(entries[1..])
  }

  /** `"\n".join(formatted_entries)`: empty exactly for no entries, and
      otherwise opening with the first entry's line. */
  function FormatTranscript(entries: seq<Entry>): (r: string)
    ensures r == [] <==> entries == []
    ensures entries != [] ==> |FormatEntry(entries[0])| <= |r|
                              && r[..|FormatEntry(entries[0])|] == FormatEntry(entries[0])
  {
    Join(FormatLines(entries))
  }

  lemma {:induction false} FormatLinesAppend(a: seq<Entry>, b: seq<Entry>)
    ensures FormatLines(a + b) == FormatLines(a) + FormatLines(b)
    decreases |a|
  {
    if a != [] {
      assert (a + b)[1..] == a[1..] + b;
      FormatLinesAppend(a[1..], b);
    } else {
      assert a + b == b;
    }
  }

  /** One entry gives its own line, with no separator. */
  lemma FormatOneEntry(e: Entry)
    ensures FormatTranscript([e]) == FormatEntry(e)
  {
  }

  /** The transcript of two runs of entries is the two transcripts with one
      line break between them, whatever the caption texts hold. With
      `FormatOneEntry` this fixes the text for every transcript. */
  lemma FormatTranscriptAppend(a: seq<Entry>, b: seq<Entry>)
    requires a != [] && b != []
    ensures FormatTranscript(a + b) == FormatTranscript(a) + "\n" + FormatTranscript(b)
  {
    FormatLinesAppend(a, b);
    JoinAppend(FormatLines(a), FormatLines(b));
  }

  predicate TextsHaveNoNewlines(entries: seq<Entry>) {
    forall k :: 0 <= k < |entries| ==> Newline !in entries[k].text
  }

  /** Reads a whole formatted transcript back, line by line. */
  function ParseLines(lines: seq<string>): (r: Option<seq<Entry>>)
    ensures r.Some? ==> |r.value| == |lines|
  {
    if lines == [] then Some([])
    else
      match ParseEntry(lines[0])
      case None => None
      case Some(e) =>
        match ParseLines(lines[1..])
        case None => None
        case Some(es) => Some([e] + es)
  }

  function ParseTranscript(s: string): Option<seq<Entry>> {
    ParseLines(Split(s))
  }

  /** Order preservation: a transcript of n entries whose texts hold no line
      break splits into exactly n lines, line k being entry k's line, with
      n - 1 separators between them. */
  lemma FormatTranscriptLines(entries: seq<Entry>)
    requires |entries| >= 1 && TextsHaveNoNewlines(entries)
    ensures |Split(FormatTranscript(entries))| == |entries|
    ensures forall k :: 0 <= k < |entries| ==>
              Split(FormatTranscript(entries))[k] == Timestamp(entries[k].start) + " " + entries[k].text
    ensures multiset(FormatTranscript(entries))[Newline] == |entries| - 1
  {
    var lines := FormatLines(entries);
    assert NoNewlines(lines);
    SplitJoin(lines);
    JoinSeparatorCount(lines);
  }

  /** Lines that each parse as the matching entry parse, together, as
      those entries. */
  lemma {:induction false} ParseLinesPointwise(lines: seq<string>, entries: seq<Entry>)
    requires |lines| == |entries|
    requires forall k :: 0 <= k < |lines| ==> ParseEntry(lines[k]) == Some(entries[k])
    ensures ParseLines(lines) == Some(entries)
  {
    if lines != [] {
      ParseLinesPointwise(lines[1..], entries[1..]);
      assert entries == [entries[0]] + entries[1..];
    }
  }

  lemma ParseLinesOfFormatted(entries: seq<Entry>)
    ensures ParseLines(FormatLines(entries)) == Some(entries)
  {
    var lines := FormatLines(entries);
    forall k | 0 <= k < |lines| ensures ParseEntry(lines[k]) == Some(entries[k]) {
      EntryRoundTrip(entries[k]);
    }
    ParseLinesPointwise(lines, entries);
  }

  /** Formatting loses nothing: the entries can be read back from the
      formatted transcript whenever no caption text holds a line break. */
  lemma TranscriptRoundTrip(entries: seq<Entry>)
    requires |entries| >= 1 && TextsHaveNoNewlines(entries)
    ensures ParseTranscript(FormatTranscript(entries)) == Some(entries)
  {
    var lines := FormatLines(entries);
    assert NoNewlines(lines);
    SplitJoin(lines);
    ParseLinesOfFormatted(entries);
  }

  /** The string `fetch_youtube_transcript` returns once the identifier is
      known: the formatted transcript, or the error text when the service
      raised or gave back no entries. */
  function TranscriptText(outcome: FetchOutcome): (r: string)
    ensures r != []
    ensures r[0] == '[' <==> outcome.Fetched? && outcome.entries != []
    ensures outcome.FetchFailed? ==> r == ErrorText(outcome.message)
    ensures outcome == Fetched([]) ==> r == ErrorText(NoTranscriptMessage)
    ensures outcome.Fetched? && outcome.entries != [] ==> r == FormatTranscript(outcome.entries)
  {
    match outcome
    case FetchFailed(message) => ErrorText(message)
    case Fetched(entries) =>
      if entries == [] then ErrorText(NoTranscriptMessage)
      else
        var s := FormatTranscript(entries);
        assert s[0] == FormatLines(entries)[0][0];
        s
  }

  /** `fetch_youtube_transcript(url)`, with the transcript service as a
      parameter. The `ValueError` for a URL without an identifier is raised
      before the `try`, so it propagates as `Err` instead of being turned
      into text. */
  function FetchYoutubeTranscript(url: string, service: string -> FetchOutcome): (r: Result<string>)
    ensures r.Err? <==> forall i: nat :: !MatchAt(url, i)
    ensures r.Err? ==> r.message == InvalidUrlMessage
    ensures r.Ok? ==> ExtractVideoId(url).Ok? && r.value == TranscriptText(service(ExtractVideoId(url).value))
  {
    match ExtractVideoId(url)
    case Err(message) => Err(message)
    case Ok(videoId) => Ok(TranscriptText(service(videoId)))
  }
}

=== FILE: video_id.dfy ===
/** Video-ID extraction of `fetch_youtube_transcript`.

    The source runs `re.search(r'(?:v=|\/)([0-9A-Za-z_-]{11}).*', url)` and
    returns group 1. `re.search` tries start positions from left to right and,
    at each position, the alternatives in order. The two alternatives begin with
    different characters (`v` and `/`), so at most one can start at a position;
    the capture is a fixed-width run of 11 characters, and the trailing `.*`
    matches the empty string when nothing else, so it never makes a match fail
    and never moves the capture. The pattern therefore denotes: the 11
    characters after the leftmost position where "v=" or "/" is followed by 11
    identifier characters. */
module VideoId {
  import opened Outcomes

  /** Width of a YouTube video identifier (`{11}` in the pattern). */
  const IdLength: nat := 11

  /** The error message raised when no identifier is found. */
  const InvalidUrlMessage: string := "Invalid YouTube URL"

  /** The character class `[0-9A-Za-z_-]` (ASCII ranges, as Python's `re`
      reads them in a `str` pattern). */
  predicate IsIdChar(c: char) {
    ('0' <= c <= '9') || ('A' <= c <= 'Z') || ('a' <= c <= 'z') || c == '_' || c == '-'
  }

  predicate AllIdChars(s: string) {
    forall k :: 0 <= k < |s| ==> IsIdChar(s[k])
  }

  /** The 11 characters starting at `k` exist and all belong to the class. */
  predicate IdRunAt(url: string, k: nat) {
    k + IdLength <= |url| && AllIdChars(url[k..k + IdLength])
  }

  /** Alternative `v=` of the pattern matches at position `i`. */
  predicate KeyMatchAt(url: string, i: nat) {
    i + 2 <= |url| && url[i..i + 2] == "v=" && IdRunAt(url, i + 2)
  }

  /** Alternative `/` of the pattern matches at position `i`. */
  predicate SlashMatchAt(url: string, i: nat) {
    i + 1 <= |url| && url[i] == '/' && IdRunAt(url, i + 1)
  }

  /** The whole pattern matches with its match starting at position `i`. */
  predicate MatchAt(url: string, i: nat) {
    KeyMatchAt(url, i) || SlashMatchAt(url, i)
  }

  /** Where group 1 begins for a match starting at `i`. */
  function CaptureStart(url: string, i: nat): nat
    requires MatchAt(url, i)
  {
    if KeyMatchAt(url, i) then i + 2 else i + 1
  }

  /** Group 1 of a match starting at `i`. */
  function CaptureAt(url: string, i: nat): string
    requires MatchAt(url, i)
  {
    url[CaptureStart(url, i)..CaptureStart(url, i) + IdLength]
  }

  /** The scan of `re.search`: the first start position at or after `from`
      where the pattern matches, if any. */
  function FirstMatch(url: string, from: nat): (r: Option<nat>)
    ensures r.Some? ==> from <= r.value < |url| && MatchAt(url, r.value)
    ensures r.Some? ==> forall j :: from <= j < r.value ==> !MatchAt(url, j)
    ensures r.None? ==> forall j: nat :: from <= j ==> !MatchAt(url, j)
    decreases |url| - from
  {
    if from >= |url| then None
    else if MatchAt(url, from) then Some(from)
    else FirstMatch(url, from + 1)
  }

  /** `video_id_match.group(1)`, or the `ValueError` raised when there is no
      match. */
  function ExtractVideoId(url: string): (r: Result<string>)
    ensures r.Ok? ==> |r.value| == IdLength && AllIdChars(r.value)
    ensures r.Ok? ==> exists i: nat :: MatchAt(url, i) && r.value == CaptureAt(url, i)
                                  && forall j :: 0 <= j < i ==> !MatchAt(url, j)
    ensures r.Err? <==> forall i: nat :: !MatchAt(url, i)
    ensures r.Err? ==> r.message == InvalidUrlMessage
  {
    match FirstMatch(url, 0)
    case None => Err(InvalidUrlMessage)
    case Some(i) => Ok(CaptureAt(url, i))
  }

  /** An identifier preceded by "v=" or "/" is found whenever no earlier
      position starts a match: the result is determined by the leftmost
      match alone. */
  lemma LeftmostMatchWins(url: string, i: nat)
    requires MatchAt(url, i)
    requires forall j :: 0 <= j < i ==> !MatchAt(url, j)
    ensures ExtractVideoId(url) == Ok(CaptureAt(url, i))
  {
    var r := FirstMatch(url, 0);
    assert r.Some?;
    assert r.value == i;
  }

  /** Appending text cannot change whether a match starts at `j` when the
      longer alternative already fits before the appended text. */
  lemma MatchStableUnderSuffix(url: string, suffix: string, j: nat)
    requires j + 2 + IdLength <= |url|
    ensures MatchAt(url + suffix, j) <==> MatchAt(url, j)
  {
    var u := url + suffix;
    assert u[j..j + 2] == url[j..j + 2];
    assert u[j + 2..j + 2 + IdLength] == url[j + 2..j + 2 + IdLength];
    assert u[j + 1..j + 1 + IdLength] == url[j + 1..j + 1 + IdLength];
  }

  /** A match survives appending text, with the same capture. */
  lemma MatchPreservedUnderSuffix(url: string, suffix: string, i: nat)
    requires MatchAt(url, i)
    ensures MatchAt(url + suffix, i) && CaptureAt(url + suffix, i) == CaptureAt(url, i)
  {
    var u := url + suffix;
    if KeyMatchAt(url, i) {
      assert u[i..i + 2] == url[i..i + 2];
      assert u[i + 2..i + 2 + IdLength] == url[i + 2..i + 2 + IdLength];
    } else {
      assert u[i] == url[i];
      assert u[i + 1..i + 1 + IdLength] == url[i + 1..i + 1 + IdLength];
    }
  }

  /** Text appended after a URL that already yields an identifier never
      changes the identifier: the leftmost match lies wholly inside the URL
      and no earlier position can start using the appended text. */
  lemma SuffixIrrelevant(url: string, suffix: string)
    requires ExtractVideoId(url).Ok?
    ensures ExtractVideoId(url + suffix) == ExtractVideoId(url)
  {
    var i: nat :| MatchAt(url, i) && ExtractVideoId(url).value == CaptureAt(url, i)
                  && forall j :: 0 <= j < i ==> !MatchAt(url, j);
    MatchPreservedUnderSuffix(url, suffix, i);
    forall j: nat | j < i ensures !MatchAt(url + suffix, j) {
      MatchStableUnderSuffix(url, suffix, j);
    }
    LeftmostMatchWins(url + suffix, i);
  }

  /** A URL with neither a '/' nor a 'v' has no identifier. */
  lemma NoMarkerNoId(url: string)
    requires '/' !in url && 'v' !in url
    ensures ExtractVideoId(url) == Err(InvalidUrlMessage)
  {
    forall i: nat | i < |url| ensures !MatchAt(url, i) {
      assert url[i] in url;
      if i + 2 <= |url| { assert url[i..i + 2][0] == url[i]; }
    }
  }
}
